=== FILE: README.md ===
# Payment-intent reconciliation, modelled in Dafny

This project models the reconciliation core of a crypto payment gateway. A
merchant registers a payment intent: an expected amount, paid to the merchant's
receiving address before an expiry instant. A blockchain transfer notification
(a webhook) is later matched against the stored intents. A successful match marks
one intent PAID with the transfer's transaction hash. Every refusal is a normal
reply that carries a reason code.

The model is functional. The record store is a `map<Id, Intent>` keyed by record
id. Each operation is a pure function from the current store to a reply and the
next store. The clock reading, the fresh uuid and the id the store assigns are
parameters. Amounts are unbounded integers in the service, as the source's
`BigInt` values are in memory. The store holds only amounts that fit a signed
64-bit column: it refuses to create a row with another amount, and a query that
filters on one fails. Instants are integer milliseconds. A millisecond count
outside the range of a JavaScript `Date`, 8.64e15 either side of the epoch,
stands for the Invalid Date built from it, which the store refuses to write.

Modules, following the source files:

- `PaymentIntentRepo` (`payment_intent_repo.dfy`) models the record store and its
  five operations. A store failure is a `StoreError` value. Creating a row with an
  Invalid Date gives an invalid-date error. Creating a row with an amount outside
  the signed 64-bit range, or querying for one, gives an out-of-range error.
  Creating a row under an id that is already used gives a unique-key violation.
  Updating an id that is not stored gives record-not-found.
- `PaymentService` (`payment_service.dfy`) models intent creation and the webhook
  handler, in direct mode and discovery mode.
- `Serialize` (`serialize.dfy`) models the bigint-to-string conversion over a
  JSON-like value.
- `Text` (`text.dfy`) holds ASCII case folding and the decimal rendering of
  integers, with a parser that proves the rendering can be read back.
- `QrPayload` (`qr_payload.dfy`) holds the `CLPNY|address|amount|uuid` payload
  format and a decoder for it.
- `ReconciliationProperties` (`reconciliation_properties.dfy`) holds lemmas that
  relate several handler calls or compare the two modes. It also restates direct
  mode as an ordered chain of checks, independently of the handler's code.
- `WebhookRuns` (`webhook_runs.dfy`) handles a sequence of deliveries one after
  another, and counts the updates they report.
- `IntentView` (`intent_view.dfy`) describes what the payment-intent routes send
  for a record once it has passed through the serialiser.
- `Wrappers` (`wrappers.dfy`) defines `Option` and `Result`.
- `Sets` (`sets.dfy`) holds the set-cardinality facts that discovery mode's
  reasoning uses: the element of a one-element set, and two members mean at
  least two elements.

Behaviours of the code that the model keeps as written:

- `markPaid` is an unconditional update, not a compare-and-set. `MarkPaid`
  models that update.
- EXPIRED is not terminal for direct mode, which refuses only PAID records. An
  EXPIRED record whose expiry instant has not passed is paid; see
  `DirectPaysExpiredStatus`.
- Amounts are never checked to be positive. Any integer that fits the column is
  accepted.
- The uuid in `qrPayload` is never given to the store. The stored record's id is
  the one the store assigns; see `PayloadUuidIsNotRecordId`.
- Direct mode compares addresses ignoring case, and discovery mode compares them
  exactly; see `AddressCaseSplitsModes`.
- The serialiser copies properties by assignment into a fresh `{}`. An own
  property named `__proto__` runs the inherited setter instead and is not copied;
  see `ProtoKeyIsDropped`.

## Model

| member | source | states |
|---|---|---|
| Text.ToLower | src/services/paymentService.ts:39 | Folding keeps the length, folds each character on its own, and leaves no ASCII capital. |
| Text.ToLowerIdempotent | src/services/paymentService.ts:39 | Folding an already folded string changes nothing. |
| Text.EqualsIgnoreCase | src/services/paymentService.ts:39 | The address comparison: identical strings are equal ignoring case, and strings equal ignoring case have the same length. |
| Text.EqualsIgnoreCasePointwise | src/services/paymentService.ts:39 | Two addresses are equal ignoring case if and only if they have the same length and agree character by character after folding. |
| Text.EqualsIgnoreCaseIsEquivalence | src/services/paymentService.ts:39 | Equality ignoring case is reflexive, symmetric and transitive. |
| Text.NatDigits | src/utils/serialize.ts:3 | A natural number renders as at least one decimal digit. A leading zero occurs only in the rendering "0" of 0. |
| Text.Decimal | src/services/paymentService.ts:19 | The rendering of an integer starts with `-` exactly when the integer is negative, and the rest is digits. It is canonical: no leading zero except "0" itself, and no "-0". |
| Text.NatDigitsRoundTrip | src/utils/serialize.ts:3 | Reading back the digits of a natural number gives the number. |
| Text.DecimalRoundTrip | src/services/paymentService.ts:19 | Parsing the decimal rendering of any integer gives that integer back. |
| Text.DecimalInjective | src/services/paymentService.ts:19 | Different integers render as different strings. |
| Text.DecimalHasNoSeparator | src/services/paymentService.ts:19 | A rendered integer contains no vertical bar, the payload's separator, so the amount field cannot split the payload. |
| QrPayload.Encode | src/services/paymentService.ts:19 | The payload joins `CLPNY`, the address, the decimal amount and the uuid with vertical bars. When neither the address nor the uuid contains a vertical bar, splitting at vertical bars gives back exactly those four fields. |
| QrPayload.FieldsSplit | src/services/paymentService.ts:19 | The scheme and three fields without a vertical bar, joined by vertical bars, split back into those four parts. |
| QrPayload.DecodeEncode | src/services/paymentService.ts:19 | When neither the address nor the uuid contains the vertical-bar separator, decoding the payload gives back its address, amount and uuid. |
| PaymentIntentRepo.CreatePaymentIntent | src/repositories/paymentIntentRepo.ts:14-23 | Fails with an invalid-date error when the expiry is an Invalid Date. Otherwise it fails with an out-of-range error when the amount does not fit a signed 64-bit column. Otherwise it fails with a unique-key violation exactly when the id is taken. Otherwise it adds one record under the new id, holding the given fields, status PENDING and no hash. Every other record is unchanged, and the PAID-iff-hash invariant is kept. |
| PaymentIntentRepo.GetPaymentIntentById | src/repositories/paymentIntentRepo.ts:26-28 | Returns the record stored under the id, or nothing when the id is absent. The store is not changed. |
| PaymentIntentRepo.FindPendingByAddressAndAmount | src/repositories/paymentIntentRepo.ts:30-36 | Fails with an out-of-range error exactly when the amount does not fit a signed 64-bit column. Otherwise it returns exactly the stored ids whose record is PENDING, has exactly this address (case-sensitive) and this amount. No expiry filter is applied. |
| PaymentIntentRepo.MarkPaid | src/repositories/paymentIntentRepo.ts:38-40 | Fails only for an absent id. Otherwise that one record becomes PAID with the given hash, whatever its prior status. Its other fields and all other records are unchanged, and the invariant is kept. |
| PaymentIntentRepo.MarkExpired | src/repositories/paymentIntentRepo.ts:42-44 | Fails only for an absent id. Otherwise that one record becomes EXPIRED, keeping its hash and other fields, and no other record changes. The invariant is kept when the record was not PAID. |
| PaymentIntentRepo.MarkExpiredCanBreakWellFormed | src/repositories/paymentIntentRepo.ts:42-44 | Marking a PAID record expired leaves an EXPIRED record that still has a hash, so the invariant does not hold after `markExpired` in general. |
| PaymentService.CreateIntent | src/services/paymentService.ts:12-29 | An unknown merchant gives the 404 `merchant not found` error and writes nothing. An expiry outside the `Date` range, an amount outside the signed 64-bit column, or an id already taken gives the store's error, in that order. Otherwise exactly one PENDING record is added under the store's id, and nothing else changes. It holds the given amount, the merchant's receiving address, expiry `now + 1000 * (expiresInSeconds ?? 300)` and the payload: `CLPNY`, the address, the decimal amount and the uuid, joined by vertical bars. |
| PaymentService.CreatedPayloadDecodes | src/services/paymentService.ts:14-19 | The payload of a created intent decodes back to the merchant's address, the amount and the fresh uuid. |
| PaymentService.PayloadUuidIsNotRecordId | src/services/paymentService.ts:14-28 | The payload does not depend on the id the store assigns. When the store assigns an id other than the uuid, the uuid decoded from the payload is not the record's id. |
| PaymentService.IsDirect | src/services/paymentService.ts:34 | The truthiness test on the intent id: an absent id or the empty string selects discovery mode, and any non-empty id selects direct mode. |
| PaymentService.EmptyIntentIdSelectsDiscovery | src/services/paymentService.ts:34-57 | An event whose intent id is absent or empty is handled exactly as discovery mode handles it. An event with a non-empty id is handled exactly as direct mode handles it on that intent. |
| PaymentService.ReasonCodesDistinct | src/services/paymentService.ts:36-56 | The seven refusal reasons have seven different, non-empty reason strings, so the string identifies the reason. |
| PaymentService.ReconcileDirect | src/services/paymentService.ts:35-43 | Checks run in a fixed order and the first failure is reported: not_found, already_paid, expired (`now > expiresAt`), address_mismatch (ignoring case), amount_too_small. It succeeds exactly when all checks pass, which admits overpayment. Success makes only that record PAID with the hash. A refusal leaves the store unchanged. |
| PaymentService.Candidates | src/services/paymentService.ts:47-50 | When the amount fits the column, the candidates are exactly the records that are PENDING, have the exact address and the exact amount, and have `expiresAt > now`. When it does not, the query fails and there are none. |
| PaymentService.ReconcileDiscovery | src/services/paymentService.ts:46-56 | An amount outside the column makes the query fail, and that failure is passed on. Otherwise no candidate gives no_match. More than one gives multiple_matches. Exactly one gives an update that pays that candidate and nothing else. Anything but an update changes nothing. |
| PaymentService.HandleBlockchainWebhook | src/services/paymentService.ts:32-57 | A store failure happens exactly for a discovery-mode event whose amount does not fit the column. A refusal or a failure leaves the store unchanged. An update pays exactly one record that was not PAID and had not expired. PAID records and records past expiry are never modified. The reason codes split by mode. The PAID-iff-hash invariant is kept. |
| ReconciliationProperties.DirectFollowsCheckChain | src/services/paymentService.ts:35-43 | Direct mode returns the same outcome as a generic first-failure chain over the four checks, in their source order. |
| ReconciliationProperties.ReplayDirectIsAlreadyPaid | src/services/paymentService.ts:37 | Sending a successful direct-mode event again, at any instant, is refused as already_paid and changes nothing. |
| ReconciliationProperties.ReplayDiscoveryFindsNoMatch | src/services/paymentService.ts:47-55 | Sending a successful discovery-mode event again, at the same instant or later, finds no candidate. |
| ReconciliationProperties.AmbiguousMatchChangesNothing | src/services/paymentService.ts:48-56 | For an amount the column can hold, two distinct candidates make discovery mode refuse with multiple_matches, and the store is left unchanged. |
| ReconciliationProperties.ExpiryInstantSplitsModes | src/services/paymentService.ts:38-50 | At `now == expiresAt`, direct mode still pays a matching PENDING intent, but discovery mode does not count it as a candidate. |
| ReconciliationProperties.AddressCaseSplitsModes | src/services/paymentService.ts:39-48 | An address that differs only in letter case is accepted by direct mode but is not a candidate in discovery mode. |
| ReconciliationProperties.MixedCaseAddressesExample | src/services/paymentService.ts:39 | `0xABC` and `0xabc` differ but are equal ignoring case. |
| ReconciliationProperties.DirectPaysExpiredStatus | src/services/paymentService.ts:37-43 | Direct mode pays an EXPIRED-status record whose expiry instant has not passed. |
| ReconciliationProperties.DirectAmountRule | src/services/paymentService.ts:40-43 | For an otherwise valid intent, an event for at least the intent's amount is paid, and a smaller one is refused as amount_too_small with no change. |
| ReconciliationProperties.DiscoveryOutOfRangeFails | src/services/paymentService.ts:47-48 | A discovery-mode event whose amount does not fit the 64-bit column ends in the store's out-of-range failure, with no change to the store. |
| ReconciliationProperties.HugeTtlIsInvalidDate | src/services/paymentService.ts:16-20 | A time-to-live of 10^13 seconds gives an expiry past the `Date` range, so creation fails with an invalid-date error. |
| ReconciliationProperties.PayThenReplayScenario | __tests__/api.test.ts:18-42 | Create an intent for 1000 to `0xabc` and pay it directly: the record reads PAID with the hash. Sending the same event again is refused, and the reply's reason string is `already_paid`. |
| WebhookRuns.StepAccounting | src/services/paymentService.ts:42-56 | One handler call removes at most one id from the set of unpaid records. It removes one exactly when it reports an update. |
| WebhookRuns.Run | src/services/paymentService.ts:32-57 | Over any sequence of deliveries, the number of updates plus the number of records still unpaid equals the number unpaid at the start. Ids and PAID records are kept, and so is the invariant. |
| WebhookRuns.AtMostOneDirectWinner | src/services/paymentService.ts:34-43 | In any sequence of direct-mode deliveries for one intent, at most one reports an update. None does if the intent starts PAID. |
| Serialize.SerializeForJson | src/utils/serialize.ts:1-17 | The result holds no bigint at any depth. A bigint becomes its canonical decimal string, which parses back to it. null, undefined, strings, numbers and booleans are unchanged. Arrays keep their length. Objects keep their key sequence minus any `__proto__` key, and no `__proto__` key remains at any depth. |
| Serialize.WithoutProto | src/utils/serialize.ts:6-9 | The properties that assignment into a fresh `{}` creates: none is named `__proto__`, each comes from the input, and all are kept exactly when none is named `__proto__`. |
| Serialize.WithoutProtoKeepsOthers | src/utils/serialize.ts:6-9 | Every property not named `__proto__` is kept. |
| Serialize.ProtoKeyIsDropped | src/utils/serialize.ts:6-9 | An object whose only property is `__proto__` becomes `{}`. |
| Serialize.SerializeMapsChildren | src/utils/serialize.ts:4-14 | Each array element is converted in place. Each property not named `__proto__` keeps its key and its position among those properties, with its value converted. |
| Serialize.FixedPointsAreBigintFree | src/utils/serialize.ts:2-16 | A value is left unchanged if and only if it has no bigint and no own `__proto__` property anywhere inside. |
| Serialize.SerializeIdempotent | src/utils/serialize.ts:2-16 | Serialising twice gives the same result as serialising once. |
| Serialize.BigintThousandExample | src/utils/serialize.ts:3 | The bigint 1000 becomes the string "1000". |
| IntentView.BodyIsSentColumns | src/routes/paymentIntents.ts:18-20 | The serialised record holds every column in place: the amount as its decimal string, the expiry as an empty object, and the other columns unchanged. |
| IntentView.ResponseAmount | src/routes/paymentIntents.ts:11-12 | In a record's response body, the amount is a decimal string that parses back to the stored integer. |
| IntentView.ResponseStatus | src/routes/paymentIntents.ts:18-20 | In a record's response body, the status is sent by name. |
| IntentView.ResponseExpiry | src/routes/paymentIntents.ts:18-20 | The expiry is a `Date`, which has no own keys, so it reaches the response body as an empty object. |

## Left out

- Parsing of amounts: `BigInt(...)` over strings (src/services/paymentService.ts:15,40,47) is JavaScript runtime behaviour. Amounts enter as integers. So the model does not show that a malformed amount throws, nor that discovery mode parses the amount before anything else while direct mode parses it only after the address check.
- uuid generation, `Date.now()`/`new Date()` and `JSON.stringify(metadata)` come from libraries or the runtime. They become parameters: the uuid, one clock reading per call, and metadata that is already JSON text, or absent when the caller's metadata was falsy.
- PaymentService.CreateIntent: `expiresInSeconds` is an integer. The source's floating-point `expiresIn * 1000`, with fractional or non-numeric inputs, is not modelled.
- Text.ToLower: folds ASCII letters only. Full Unicode `toLowerCase` is not modelled; the addresses compared are hex strings.
- PaymentIntentRepo.FindPendingByAddressAndAmount: returns the set of matching ids rather than a list of rows. Ids are unique, so the count is the list's length. The list order is not modelled; the caller uses only the count and the single element.
- PaymentService.HandleBlockchainWebhook: the event's fields are strings, as the handler's parameter type declares. The route builds the event from the request body without checking it (src/routes/webhooks.ts:10-11), so a missing field is not modelled. Assuming Prisma treats an `undefined` field as absent, a missing `txHash` makes `markPaid` leave a PAID record with no hash, which breaks the PAID-iff-hash invariant. A missing `to` makes direct mode throw at `toLowerCase` (src/services/paymentService.ts:39). In discovery mode, a missing `to` drops the address filter of the query, so one pending intent of that amount for any merchant can be paid.
- Concurrency: racing deliveries, and the check-then-act window between the reads and `markPaid`, are not modelled. `WebhookRuns` covers sequential handling only.
- PaymentIntentRepo.CreatePaymentIntent: when an intent has both an Invalid Date and an out-of-range amount, the model reports the Invalid Date. Prisma rejects an invalid `Date` while checking the arguments, before the query reaches the database; the order between the two is not visible in the source.
- PaymentIntentRepo.CreatePaymentIntent: the 64-bit bound assumes the amount column is a Prisma `BigInt`, a signed 64-bit integer. The source passes a `bigint` to the store (src/repositories/paymentIntentRepo.ts:7,16), but the database schema is not part of this model. Other column limits, such as string lengths, are not modelled.
- Prisma and the database: the store is a map and the merchant directory (src/repositories/merchantRepo.ts) is a map. Infrastructure failures other than the four `StoreError` cases are not modelled.
- HTTP plumbing: the routes, `app.ts`, `server.ts`, the auth and error-handler middleware and `HttpError.ts` are not modelled. The exceptions are the serialised record body in `IntentView`, the creation error value, and the `Failed` outcome of the webhook handler. `Failed` stands for the store's exception, which the route passes to the error handler (src/routes/webhooks.ts:23) and which ends in a 500 reply (src/middleware/errorHandler.ts:12). The merchant callback is left out; it fires only after a direct-mode update (src/routes/webhooks.ts:14).
- Callback dispatch (`src/webhooks/dispatcher.ts`, a network call), logging (`src/logger.ts`) and the no-op blockchain listener (`src/blockchain/client.ts`) are not modelled.
- The KYC service (`offchain/kyc-service`) is not modelled. It is built from foreign hashing and ABI-encoding libraries.
- The serialiser's try/catch fallback (src/utils/serialize.ts:8-12) is not modelled. It is reached when converting a property throws: a throwing getter, a proxy, or nesting deep enough to exhaust the call stack, in which case the source writes `String(value)` ("[object Object]") at that depth. Model values have no getters or proxies, and the model has no depth limit, so it converts every tree completely.
- IntentView.ResponseAmount: the key order and full column set of the stored record come from the database schema, which is not part of this model. `AsJsObject` lists the columns the core reads and writes, in a fixed order, and the lemmas look keys up by name.

=== FILE: intent_view.dfy ===
/** What the payment-intent routes send back for a stored record: the record
    as a JavaScript object, passed through `serializeForJson`. */
module IntentView {
  import opened Wrappers
  import opened Text
  import opened PaymentIntentRepo
  import opened Serialize

  function StatusName(s: Status): string {
    match s
    case Pending => "PENDING"
    case Paid => "PAID"
    case Expired => "EXPIRED"
  }

  function Nullable(o: Option<string>): Value {
    match o
    case Some(s) => Str(s)
    case None => Null
  }

  /** The record as the store hands it to the route: the amount is a bigint
      and the expiry is a `Date`, which has no own keys. */
  function AsJsObject(id: Id, pi: Intent): Value {
    Obj([ ("id", Str(id)),
          ("merchantId", Str(pi.merchantId)),
          ("amount", Big(pi.amount)),
          ("description", Nullable(pi.description)),
          ("expiresAt", Obj([])),
          ("qrPayload", Str(pi.qrPayload)),
          ("merchantAddress", Str(pi.merchantAddress)),
          ("metadata", Nullable(pi.metadata)),
          ("status", Str(StatusName(pi.status))),
          ("blockchainTxHash", Nullable(pi.blockchainTxHash)) ])
  }

  /** The value stored under `key` in an object's property list, if any. */
  function Lookup(fields: seq<(string, Value)>, key: string): Option<Value> {
    if fields == [] then None
    else if fields[0].0 == key then Some(fields[0].1)
    else Lookup(fields[1..], key)
  }

  lemma {:induction false} LookupFirst(fields: seq<(string, Value)>, i: nat, key: string)
    requires i < |fields| && fields[i].0 == key
    requires forall j :: 0 <= j < i ==> fields[j].0 != key
    ensures Lookup(fields, key) == Some(fields[i].1)
    decreases i
  {
    if i > 0 {
      LookupFirst(fields[1..], i - 1, key);
    }
  }

  /** An object without a `__proto__` property is converted property by
      property, in place. */
  lemma ConvertedInPlace(fields: seq<(string, Value)>, sent: seq<(string, Value)>)
    requires HasNoProto(fields) && |sent| == |fields|
    requires forall i :: 0 <= i < |fields| ==> sent[i] == (fields[i].0, SerializeForJson(fields[i].1))
    ensures SerializeForJson(Obj(fields)) == Obj(sent)
  {
    SerializeMapsChildren(Obj(fields));
  }

  /** The record after the serialiser, column by column: the amount is its
      decimal string, the expiry an empty object, everything else unchanged. */
  function SentColumns(id: Id, pi: Intent): seq<(string, Value)> {
    [ ("id", Str(id)),
      ("merchantId", Str(pi.merchantId)),
      ("amount", Str(Decimal(pi.amount))),
      ("description", Nullable(pi.description)),
      ("expiresAt", Obj([])),
      ("qrPayload", Str(pi.qrPayload)),
      ("merchantAddress", Str(pi.merchantAddress)),
      ("metadata", Nullable(pi.metadata)),
      ("status", Str(StatusName(pi.status))),
      ("blockchainTxHash", Nullable(pi.blockchainTxHash)) ]
  }

  lemma BodyIsSentColumns(id: Id, pi: Intent)
    ensures SerializeForJson(AsJsObject(id, pi)) == Obj(SentColumns(id, pi))
  {
    var fields := AsJsObject(id, pi).fields;
    var sent := SentColumns(id, pi);
    assert HasNoProto(fields) by {
      forall i | 0 <= i < |fields|
        ensures fields[i].0 != ProtoKey
      {
        assert |fields[i].0| != |ProtoKey| || fields[i].0[0] != ProtoKey[0];
      }
    }
    assert SerializeForJson(Obj([])) == Obj([]) by {
      assert WithoutProto([]) == [];
    }
    ConvertedInPlace(fields, sent);
  }

  /** The response body of a record carries the amount as a decimal string that
      reads back as the stored integer. */
  lemma ResponseAmount(id: Id, pi: Intent)
    ensures var body := SerializeForJson(AsJsObject(id, pi));
            && body.Obj?
            && Lookup(body.fields, "amount") == Some(Str(Decimal(pi.amount)))
            && ParseDecimal(Decimal(pi.amount)) == Some(pi.amount)
  {
    BodyIsSentColumns(id, pi);
    DecimalRoundTrip(pi.amount);
    LookupFirst(SentColumns(id, pi), 2, "amount");
  }

  /** The response body of a record carries its status by name. */
  lemma ResponseStatus(id: Id, pi: Intent)
    ensures var body := SerializeForJson(AsJsObject(id, pi));
            body.Obj? && Lookup(body.fields, "status") == Some(Str(StatusName(pi.status)))
  {
    BodyIsSentColumns(id, pi);
    LookupFirst(SentColumns(id, pi), 8, "status");
  }

  /** The expiry, a `Date` with no own keys, reaches the response body as an
      empty object rather than as a timestamp. */
  lemma ResponseExpiry(id: Id, pi: Intent)
    ensures var body := SerializeForJson(AsJsObject(id, pi));
            body.Obj? && Lookup(body.fields, "expiresAt") == Some(Obj([]))
  {
    BodyIsSentColumns(id, pi);
    LookupFirst(SentColumns(id, pi), 4, "expiresAt");
  }
}

=== FILE: payment_intent_repo.dfy ===
/** The payment-intent record store: a map from record id to record, with the
    five operations the service drives. Prisma's failures (an Invalid Date,
    an amount outside the signed 64-bit `BigInt` column, a unique-key clash on
    create, an update of a missing row) become `StoreError` values. */
module PaymentIntentRepo {
  import opened Wrappers

  type Id = string

  datatype Status = Pending | Paid | Expired

  /** A stored payment intent. Its id is the key it is stored under. */
  datatype Intent = Intent(
    merchantId: string,
    amount: int,
    description: Option<string>,
    expiresAt: int,            // milliseconds since the epoch
    qrPayload: string,
    merchantAddress: string,
    metadata: Option<string>,  // already JSON-encoded text
    status: Status,
    blockchainTxHash: Option<string>)

  /** The fields a caller supplies when creating an intent. */
  datatype NewIntent = NewIntent(
    merchantId: string,
    amount: int,
    description: Option<string>,
    expiresAt: int,
    qrPayload: string,
    merchantAddress: string,
    metadata: Option<string>)

  type Store = map<Id, Intent>

  datatype StoreError =
    | InvalidDate(ms: int)
    | AmountOutOfRange(amount: int)
    | UniqueViolation(id: Id)
    | RecordNotFound(id: Id)

  /** A JavaScript `Date` holds at most 8.64e15 milliseconds either side of the
      epoch (the TimeClip operation of ECMAScript); `new Date(ms)` outside that
      range is an Invalid Date. A time is represented by its millisecond count,
      so an out-of-range count stands for the Invalid Date built from it. */
  const MaxTimeMs: int := 8_640_000_000_000_000

  predicate IsValidTime(ms: int) {
    -MaxTimeMs <= ms <= MaxTimeMs
  }

  /** The range of a signed 64-bit `BigInt` column. */
  const MinColumnAmount: int := -0x8000_0000_0000_0000
  const MaxColumnAmount: int := 0x7FFF_FFFF_FFFF_FFFF

  predicate FitsColumn(amount: int) {
    MinColumnAmount <= amount <= MaxColumnAmount
  }

  /** `pi` carries exactly the creation fields of `data`. */
  predicate Carries(pi: Intent, data: NewIntent) {
    && pi.merchantId == data.merchantId
    && pi.amount == data.amount
    && pi.description == data.description
    && pi.expiresAt == data.expiresAt
    && pi.qrPayload == data.qrPayload
    && pi.merchantAddress == data.merchantAddress
    && pi.metadata == data.metadata
  }

  /** `a` and `b` agree on every field except status and transaction hash. */
  predicate SameCreationFields(a: Intent, b: Intent) {
    && a.merchantId == b.merchantId
    && a.amount == b.amount
    && a.description == b.description
    && a.expiresAt == b.expiresAt
    && a.qrPayload == b.qrPayload
    && a.merchantAddress == b.merchantAddress
    && a.metadata == b.metadata
  }

  /** `after` holds the same ids as `before`, and every record other than `id`
      is untouched. */
  predicate OnlyRecordChanged(before: Store, after: Store, id: Id) {
    && after.Keys == before.Keys
    && forall k :: k in before && k != id ==> after[k] == before[k]
  }

  /** The status/hash invariant: a record is PAID exactly when it carries a
      transaction hash. */
  predicate WellFormed(store: Store) {
    forall k :: k in store ==> (store[k].status == Paid <==> store[k].blockchainTxHash.Some?)
  }

  /** `createPaymentIntent`: inserts a PENDING record without a transaction hash
      under the id the store assigns. An Invalid Date, then an amount the 64-bit
      column cannot hold, is refused before the row is written. */
  function CreatePaymentIntent(store: Store, newId: Id, data: NewIntent): (r: Result<Store, StoreError>)
    ensures r.Failure? <==> !IsValidTime(data.expiresAt) || !FitsColumn(data.amount) || newId in store
    ensures !IsValidTime(data.expiresAt) ==> r == Failure(InvalidDate(data.expiresAt))
    ensures IsValidTime(data.expiresAt) && !FitsColumn(data.amount) ==> r == Failure(AmountOutOfRange(data.amount))
    ensures IsValidTime(data.expiresAt) && FitsColumn(data.amount) && newId in store ==>
              r == Failure(UniqueViolation(newId))
    ensures r.Success? ==>
              && r.value.Keys == store.Keys + {newId}
              && Carries(r.value[newId], data)
              && r.value[newId].status == Pending
              && r.value[newId].blockchainTxHash == None
              && forall k :: k in store ==> r.value[k] == store[k]
    ensures r.Success? && WellFormed(store) ==> WellFormed(r.value)
  {
    if !IsValidTime(data.expiresAt) then Failure(InvalidDate(data.expiresAt))
    else if !FitsColumn(data.amount) then Failure(AmountOutOfRange(data.amount))
    else if newId in store then Failure(UniqueViolation(newId))
    else
      var pi := Intent(data.merchantId, data.amount, data.description, data.expiresAt,
                       data.qrPayload, data.merchantAddress, data.metadata, Pending, None);
      Success(store[newId := pi])
  }

  /** `getPaymentIntentById`: the record stored under `id`, if any. */
  function GetPaymentIntentById(store: Store, id: Id): (r: Option<Intent>)
    ensures r.Some? <==> id in store
    ensures r.Some? ==> r.value == store[id]
  {
    if id in store then Some(store[id]) else None
  }

  /** `findPendingByAddressAndAmount`: the ids of the PENDING records whose
      address is byte-for-byte `address` and whose amount is `amount`. No
      expiry filter is applied here. An amount the 64-bit column cannot hold
      makes the query itself fail. */
  function FindPendingByAddressAndAmount(store: Store, address: string, amount: int): (r: Result<set<Id>, StoreError>)
    ensures r.Failure? <==> !FitsColumn(amount)
    ensures r.Failure? ==> r.error == AmountOutOfRange(amount)
    ensures r.Success? ==> r.value <= store.Keys
    ensures r.Success? ==> forall k :: k in store ==>
              (k in r.value <==> store[k].status == Pending && store[k].merchantAddress == address && store[k].amount == amount)
  {
    if !FitsColumn(amount) then Failure(AmountOutOfRange(amount))
    else Success(set k | k in store && store[k].status == Pending && store[k].merchantAddress == address && store[k].amount == amount)
  }

  /** `markPaid`: an unconditional update. Whatever the record's prior status,
      it becomes PAID with the given hash; nothing else changes. */
  function MarkPaid(store: Store, id: Id, txHash: string): (r: Result<Store, StoreError>)
    ensures r.Failure? <==> id !in store
    ensures r.Failure? ==> r.error == RecordNotFound(id)
    ensures r.Success? ==>
              && OnlyRecordChanged(store, r.value, id)
              && SameCreationFields(r.value[id], store[id])
              && r.value[id].status == Paid
              && r.value[id].blockchainTxHash == Some(txHash)
    ensures r.Success? && WellFormed(store) ==> WellFormed(r.value)
  {
    if id !in store then Failure(RecordNotFound(id))
    else Success(store[id := store[id].(status := Paid, blockchainTxHash := Some(txHash))])
  }

  /** `markExpired`: sets the status to EXPIRED and leaves the hash alone. */
  function MarkExpired(store: Store, id: Id): (r: Result<Store, StoreError>)
    ensures r.Failure? <==> id !in store
    ensures r.Failure? ==> r.error == RecordNotFound(id)
    ensures r.Success? ==>
              && OnlyRecordChanged(store, r.value, id)
              && SameCreationFields(r.value[id], store[id])
              && r.value[id].status == Expired
              && r.value[id].blockchainTxHash == store[id].blockchainTxHash
    ensures r.Success? && WellFormed(store) && store[id].status != Paid ==> WellFormed(r.value)
  {
    if id !in store then Failure(RecordNotFound(id))
    else Success(store[id := store[id].(status := Expired)])
  }

  /** Marking a PAID record expired keeps its hash, so the status/hash invariant
      does not survive `markExpired` in general. */
  lemma MarkExpiredCanBreakWellFormed()
    ensures exists store: Store, id: Id ::
              WellFormed(store) && MarkExpired(store, id).Success? && !WellFormed(MarkExpired(store, id).value)
  {
    var pi := Intent("m", 1, None, 0, "", "0xabc", None, Paid, Some("0x1"));
    var store: Store := map["i" := pi];
    var after := MarkExpired(store, "i").value;
    assert after["i"].status == Expired && after["i"].blockchainTxHash.Some?;
    assert WellFormed(store) && !WellFormed(after);
  }
}

=== FILE: payment_service.dfy ===
/** The reconciliation engine: creation of payment intents and the handler that
    matches an incoming blockchain transfer against them. Every operation is a
    pure function from the current store to a reply and the next store. */
module PaymentService {
  import opened Wrappers
  import opened Text
  import QrPayload
  import opened PaymentIntentRepo
  import opened Sets

  // ---------------------------------------------------------------------------
  // Intent creation
  // ---------------------------------------------------------------------------

  datatype Merchant = Merchant(name: string, clpnyReceivingAddress: string, callbackUrl: Option<string>)

  /** The merchant directory, keyed by merchant id. */
  type Merchants = map<string, Merchant>

  const DefaultExpiresInSeconds: int := 300

  /** What intent creation can fail with: the thrown `{status, message}` object,
      or a failure of the store itself. */
  datatype ServiceError = HttpError(status: int, message: string) | StoreFailure(cause: StoreError)

  /** The record intent creation returns, with its id and the store after it. */
  datatype Created = Created(id: Id, intent: Intent, store: Store)

  /** `createIntent`. The clock reading `now` (milliseconds), the fresh uuid put in
      the payload and the id the store assigns to the new row are inputs; the
      amount is already an integer and `metadata` is already JSON text (absent
      when the caller's metadata was falsy). */
  function CreateIntent(merchants: Merchants, store: Store, merchantId: string, amount: int,
                        description: Option<string>, expiresInSeconds: Option<int>,
                        metadata: Option<string>, now: int, uuid: string, newId: Id): (r: Result<Created, ServiceError>)
    ensures merchantId !in merchants ==> r == Failure(HttpError(404, "merchant not found"))
    ensures merchantId in merchants ==>
              var expiresAt := now + 1000 * (if expiresInSeconds.Some? then expiresInSeconds.value else 300);
              && (r.Failure? <==> !IsValidTime(expiresAt) || !FitsColumn(amount) || newId in store)
              && (!IsValidTime(expiresAt) ==> r == Failure(StoreFailure(InvalidDate(expiresAt))))
              && (IsValidTime(expiresAt) && !FitsColumn(amount) ==>
                    r == Failure(StoreFailure(AmountOutOfRange(amount))))
              && (IsValidTime(expiresAt) && FitsColumn(amount) && newId in store ==>
                    r == Failure(StoreFailure(UniqueViolation(newId))))
    ensures r.Success? ==>
              && r.value.id == newId
              && r.value.store.Keys == store.Keys + {newId}
              && r.value.store[newId] == r.value.intent
              && forall k :: k in store ==> r.value.store[k] == store[k]
    ensures r.Success? ==>
              var address := merchants[merchantId].clpnyReceivingAddress;
              && r.value.intent.merchantId == merchantId
              && r.value.intent.amount == amount
              && r.value.intent.merchantAddress == address
              && r.value.intent.expiresAt == now + 1000 * (if expiresInSeconds.Some? then expiresInSeconds.value else 300)
              && r.value.intent.description == description
              && r.value.intent.metadata == metadata
              && r.value.intent.status == Pending
              && r.value.intent.blockchainTxHash == None
              && r.value.intent.qrPayload == "CLPNY|" + address + "|" + Decimal(amount) + "|" + uuid
    ensures r.Success? && WellFormed(store) ==> WellFormed(r.value.store)
  {
    if merchantId !in merchants then Failure(HttpError(404, "merchant not found"))
    else
      var merchantAddress := merchants[merchantId].clpnyReceivingAddress;
      var expiresAt := now + expiresInSeconds.GetOr(DefaultExpiresInSeconds) * 1000;
      var qrPayload := QrPayload.Encode(merchantAddress, amount, uuid);
      var data := NewIntent(merchantId, amount, description, expiresAt, qrPayload, merchantAddress, metadata);
      match CreatePaymentIntent(store, newId, data)
      case Failure(err) => Failure(StoreFailure(err))
      case Success(store') => Success(Created(newId, store'[newId], store'))
  }

  /** The payload of a created intent decodes back to the merchant's address, the
      amount and the fresh uuid, whenever neither the address nor the uuid
      contains the separator `|`. */
  lemma CreatedPayloadDecodes(merchants: Merchants, store: Store, merchantId: string, amount: int,
                              description: Option<string>, expiresInSeconds: Option<int>,
                              metadata: Option<string>, now: int, uuid: string, newId: Id)
    requires merchantId in merchants
    requires QrPayload.Separator !in merchants[merchantId].clpnyReceivingAddress
    requires QrPayload.Separator !in uuid
    ensures var r := CreateIntent(merchants, store, merchantId, amount, description, expiresInSeconds, metadata, now, uuid, newId);
            r.Success? ==>
              QrPayload.Decode(r.value.intent.qrPayload)
                == Some(QrPayload.Fields(merchants[merchantId].clpnyReceivingAddress, amount, uuid))
  {
    QrPayload.DecodeEncode(merchants[merchantId].clpnyReceivingAddress, amount, uuid);
  }

  /** The uuid in the payload and the id of the stored record are independent:
      the payload does not depend on the id the store assigns, and when the
      store assigns an id other than the uuid, the uuid a decoder reads from the
      payload is not the record's id. */
  lemma PayloadUuidIsNotRecordId(merchants: Merchants, store: Store, merchantId: string, amount: int,
                                 description: Option<string>, expiresInSeconds: Option<int>,
                                 metadata: Option<string>, now: int, uuid: string, id1: Id, id2: Id)
    requires merchantId in merchants
    requires QrPayload.Separator !in merchants[merchantId].clpnyReceivingAddress
    requires QrPayload.Separator !in uuid
    requires FitsColumn(amount)
    requires IsValidTime(now + 1000 * expiresInSeconds.GetOr(DefaultExpiresInSeconds))
    requires id1 !in store && id2 !in store
    ensures var r1 := CreateIntent(merchants, store, merchantId, amount, description, expiresInSeconds, metadata, now, uuid, id1);
            var r2 := CreateIntent(merchants, store, merchantId, amount, description, expiresInSeconds, metadata, now, uuid, id2);
            && r1.Success? && r2.Success?
            && r1.value.intent.qrPayload == r2.value.intent.qrPayload
            && QrPayload.Decode(r1.value.intent.qrPayload)
                 == Some(QrPayload.Fields(merchants[merchantId].clpnyReceivingAddress, amount, uuid))
            && (id1 != uuid ==> QrPayload.Decode(r1.value.intent.qrPayload).value.uuid != r1.value.id)
  {
    CreatedPayloadDecodes(merchants, store, merchantId, amount, description, expiresInSeconds, metadata, now, uuid, id1);
  }

  // ---------------------------------------------------------------------------
  // Reconciliation
  // ---------------------------------------------------------------------------

  /** A transfer notification, with its amount already an integer. */
  datatype Event = Event(txHash: string, from: string, to: string, amount: int, paymentIntentId: Option<string>)

  datatype Reason =
    | NotFound | AlreadyPaid | ExpiredIntent | AddressMismatch | AmountTooSmall
    | NoMatch | MultipleMatches
  {
    /** The `reason` string of the reply. */
    function Code(): string {
      match this
      case NotFound => "not_found"
      case AlreadyPaid => "already_paid"
      case ExpiredIntent => "expired"
      case AddressMismatch => "address_mismatch"
      case AmountTooSmall => "amount_too_small"
      case NoMatch => "no_match"
      case MultipleMatches => "multiple_matches"
    }
  }

  /** Each refusal has its own reason string, so a caller can tell the reasons
      apart by the string alone. */
  lemma ReasonCodesDistinct(a: Reason, b: Reason)
    ensures a.Code() == b.Code() ==> a == b
    ensures |a.Code()| > 0
  {
  }

  /** `{updated: true}`, `{updated: false, reason}`, or an exception from the
      store, which the route hands to its error handler (a 500 reply). */
  datatype Outcome = Updated | Rejected(reason: Reason) | Failed(cause: StoreError)

  datatype Reply = Reply(outcome: Outcome, store: Store)

  /** `if (payload.paymentIntentId)`: an absent or empty id selects discovery mode. */
  predicate IsDirect(e: Event)
    ensures e.paymentIntentId.None? ==> !IsDirect(e)
    ensures e.paymentIntentId == Some("") ==> !IsDirect(e)
    ensures e.paymentIntentId.Some? && |e.paymentIntentId.value| > 0 ==> IsDirect(e)
  {
    e.paymentIntentId.Some? && e.paymentIntentId.value != ""
  }

  /** Record `id` was not PAID before and is PAID with `txHash` after; its other
      fields and every other record are unchanged. */
  predicate PaidOnly(before: Store, after: Store, id: Id, txHash: string) {
    && id in before
    && before[id].status != Paid
    && OnlyRecordChanged(before, after, id)
    && SameCreationFields(after[id], before[id])
    && after[id].status == Paid
    && after[id].blockchainTxHash == Some(txHash)
  }

  /** Every check of direct mode passes for `pi`. */
  predicate DirectAdmits(pi: Intent, e: Event, now: int) {
    && pi.status != Paid
    && now <= pi.expiresAt
    && EqualsIgnoreCase(pi.merchantAddress, e.to)
    && e.amount >= pi.amount
  }

  /** Direct mode on intent `id`: the checks run in a fixed order and the first
      one that fails is the reason; if none fails the intent is marked PAID. */
  function ReconcileDirect(store: Store, id: Id, e: Event, now: int): (r: Reply)
    ensures r.outcome.Updated? <==> id in store && DirectAdmits(store[id], e, now)
    ensures id !in store ==> r.outcome == Rejected(NotFound)
    ensures id in store && store[id].status == Paid ==> r.outcome == Rejected(AlreadyPaid)
    ensures id in store && store[id].status != Paid && now > store[id].expiresAt ==>
              r.outcome == Rejected(ExpiredIntent)
    ensures id in store && store[id].status != Paid && now <= store[id].expiresAt
              && !EqualsIgnoreCase(store[id].merchantAddress, e.to) ==>
              r.outcome == Rejected(AddressMismatch)
    ensures id in store && store[id].status != Paid && now <= store[id].expiresAt
              && EqualsIgnoreCase(store[id].merchantAddress, e.to) && e.amount < store[id].amount ==>
              r.outcome == Rejected(AmountTooSmall)
    ensures r.outcome.Rejected? ==> r.store == store
    ensures r.outcome.Updated? ==> PaidOnly(store, r.store, id, e.txHash)
  {
    match GetPaymentIntentById(store, id)
    case None => Reply(Rejected(NotFound), store)
    case Some(pi) =>
      if pi.status == Paid then Reply(Rejected(AlreadyPaid), store)
      else if now > pi.expiresAt then Reply(Rejected(ExpiredIntent), store)
      else if !EqualsIgnoreCase(pi.merchantAddress, e.to) then Reply(Rejected(AddressMismatch), store)
      else if e.amount < pi.amount then Reply(Rejected(AmountTooSmall), store)
      else
        var paid := MarkPaid(store, id, e.txHash);
        assert paid.Success?;
        Reply(Updated, paid.value)
  }

  /** A discovery-mode candidate: PENDING, the exact address, the exact amount,
      and not yet at its expiry instant. */
  predicate IsCandidate(pi: Intent, e: Event, now: int) {
    && pi.status == Pending
    && pi.merchantAddress == e.to
    && pi.amount == e.amount
    && pi.expiresAt > now
  }

  /** The repository's pending matches, filtered on `expiresAt > now`; none
      when the query fails on an amount the column cannot hold. */
  function Candidates(store: Store, e: Event, now: int): (ids: set<Id>)
    ensures ids <= store.Keys
    ensures FitsColumn(e.amount) ==> forall k :: k in store ==> (k in ids <==> IsCandidate(store[k], e, now))
    ensures !FitsColumn(e.amount) ==> ids == {}
  {
    match FindPendingByAddressAndAmount(store, e.to, e.amount)
    case Failure(_) => {}
    case Success(pending) => set k | k in pending && store[k].expiresAt > now
  }

  /** Discovery mode: exactly one candidate is marked PAID; none, or more than
      one, is refused without any change. A failed query is passed on, again
      without any change. */
  function ReconcileDiscovery(store: Store, e: Event, now: int): (r: Reply)
    ensures r.outcome.Failed? <==> !FitsColumn(e.amount)
    ensures r.outcome.Failed? ==> r.outcome.cause == AmountOutOfRange(e.amount)
    ensures r.outcome == Rejected(NoMatch) <==> FitsColumn(e.amount) && Candidates(store, e, now) == {}
    ensures r.outcome == Rejected(MultipleMatches) <==> |Candidates(store, e, now)| > 1
    ensures r.outcome.Updated? <==> |Candidates(store, e, now)| == 1
    ensures !r.outcome.Updated? ==> r.store == store
    ensures |Candidates(store, e, now)| == 1 ==>
              PaidOnly(store, r.store, TheElement(Candidates(store, e, now)), e.txHash)
  {
    match FindPendingByAddressAndAmount(store, e.to, e.amount)
    case Failure(err) => Reply(Failed(err), store)
    case Success(_) =>
      var valid := Candidates(store, e, now);
      if |valid| == 1 then
        var id := TheElement(valid);
        var paid := MarkPaid(store, id, e.txHash);
        assert paid.Success?;
        Reply(Updated, paid.value)
      else if |valid| == 0 then Reply(Rejected(NoMatch), store)
      else Reply(Rejected(MultipleMatches), store)
  }

  /** `handleBlockchainWebhook`: direct mode when the event names an intent,
      discovery mode otherwise. A refusal or a store failure changes nothing; a
      success marks exactly one unpaid, unexpired record PAID. */
  function HandleBlockchainWebhook(store: Store, e: Event, now: int): (r: Reply)
    ensures r.store.Keys == store.Keys
    ensures !r.outcome.Updated? ==> r.store == store
    ensures r.outcome.Failed? <==> !IsDirect(e) && !FitsColumn(e.amount)
    ensures r.outcome.Failed? ==> r.outcome.cause == AmountOutOfRange(e.amount)
    ensures r.outcome.Updated? ==>
              exists k :: PaidOnly(store, r.store, k, e.txHash) && now <= store[k].expiresAt
    ensures forall k :: k in store && store[k].status == Paid ==> r.store[k] == store[k]
    ensures forall k :: k in store && now > store[k].expiresAt ==> r.store[k] == store[k]
    ensures r.outcome.Rejected? ==>
              (IsDirect(e) <==> r.outcome.reason in {NotFound, AlreadyPaid, ExpiredIntent, AddressMismatch, AmountTooSmall})
    ensures WellFormed(store) ==> WellFormed(r.store)
  {
    if IsDirect(e) then
      var r := ReconcileDirect(store, e.paymentIntentId.value, e, now);
      assert r.outcome.Updated? ==> PaidOnly(store, r.store, e.paymentIntentId.value, e.txHash);
      r
    else
      var r := ReconcileDiscovery(store, e, now);
      assert r.outcome.Updated? ==> PaidOnly(store, r.store, TheElement(Candidates(store, e, now)), e.txHash);
      r
  }

  /** The handler dispatches on the truthiness of the intent id: a non-empty id
      runs direct mode on that intent, and an absent or empty id runs discovery
      mode. */
  lemma EmptyIntentIdSelectsDiscovery(store: Store, e: Event, now: int)
    ensures e.paymentIntentId == Some("") ==> HandleBlockchainWebhook(store, e, now) == ReconcileDiscovery(store, e, now)
    ensures e.paymentIntentId.None? ==> HandleBlockchainWebhook(store, e, now) == ReconcileDiscovery(store, e, now)
    ensures e.paymentIntentId.Some? && e.paymentIntentId.value != "" ==>
              HandleBlockchainWebhook(store, e, now) == ReconcileDirect(store, e.paymentIntentId.value, e, now)
  {
  }
}

=== FILE: qr_payload.dfy ===
/** The scannable payment string `CLPNY|<address>|<amount>|<uuid>` that intent
    creation stores in `qrPayload`, and a decoder that splits it back into its
    fields. */
module QrPayload {
  import opened Wrappers
  import opened Text

  const Scheme: string := "CLPNY"
  const Separator: char := '|'

  datatype Fields = Fields(address: string, amount: int, uuid: string)

  /** The payload as intent creation formats it: scheme, receiving address,
      decimal amount and a fresh uuid, joined by `|`. When neither the address
      nor the uuid contains `|`, splitting at `|` yields exactly those four
      fields. */
  function Encode(address: string, amount: int, uuid: string): (qr: string)
    ensures Separator !in address && Separator !in uuid ==>
              Split(qr, Separator) == [Scheme, address, Decimal(amount), uuid]
  {
    var qr := Scheme + [Separator] + address + [Separator] + Decimal(amount) + [Separator] + uuid;
    if Separator !in address && Separator !in uuid then
      DecimalHasNoSeparator(amount, Separator);
      FieldsSplit(address, Decimal(amount), uuid);
      qr
    else qr
  }

  /** Splits `s` at every occurrence of `sep`; `k` separators give `k + 1` parts. */
  function Split(s: string, sep: char): (parts: seq<string>)
    ensures |parts| >= 1
    ensures |parts| == 1 <==> sep !in s
    ensures sep !in s ==> parts == [s]
  {
    if s == [] then [""]
    else
      var rest := Split(s[1..], sep);
      assert sep !in s ==> sep !in s[1..] && [s[0]] + s[1..] == s;
      if s[0] == sep then [""] + rest else [[s[0]] + rest[0]] + rest[1..]
  }

  /** Reads a payload back: exactly four parts, the first being the scheme and
      the third a decimal integer. */
  function Decode(qr: string): Option<Fields> {
    var parts := Split(qr, Separator);
    if |parts| == 4 && parts[0] == Scheme then
      match ParseDecimal(parts[2])
      case Some(n) => Some(Fields(parts[1], n, parts[3]))
      case None => None
    else None
  }

  lemma {:induction false} SplitAfterField(a: string, sep: char, b: string)
    requires sep !in a
    ensures Split(a + [sep] + b, sep) == [a] + Split(b, sep)
    decreases |a|
  {
    if a == [] {
      assert a + [sep] + b == [sep] + b;
      assert ([sep] + b)[1..] == b;
    } else {
      assert (a + [sep] + b)[1..] == a[1..] + [sep] + b;
      SplitAfterField(a[1..], sep, b);
      assert [a[0]] + a[1..] == a;
    }
  }

  /** Joining the scheme and three separator-free fields with `|` splits back
      into the four parts. */
  lemma FieldsSplit(address: string, d: string, uuid: string)
    requires Separator !in address && Separator !in d && Separator !in uuid
    ensures Split(Scheme + [Separator] + address + [Separator] + d + [Separator] + uuid, Separator)
              == [Scheme, address, d, uuid]
  {
    var tail2 := d + [Separator] + uuid;
    var tail1 := address + [Separator] + tail2;
    assert Scheme + [Separator] + address + [Separator] + d + [Separator] + uuid
        == Scheme + [Separator] + tail1;
    SplitAfterField(d, Separator, uuid);
    SplitAfterField(address, Separator, tail2);
    assert Separator !in Scheme;
    SplitAfterField(Scheme, Separator, tail1);
  }

  /** When neither the address nor the uuid contains `|`, decoding an encoded
      payload recovers exactly the three fields that went in. */
  lemma DecodeEncode(address: string, amount: int, uuid: string)
    requires Separator !in address && Separator !in uuid
    ensures Decode(Encode(address, amount, uuid)) == Some(Fields(address, amount, uuid))
  {
    DecimalHasNoSeparator(amount, Separator);
    DecimalRoundTrip(amount);
  }
}

=== FILE: reconciliation_properties.dfy ===
/** Properties of the reconciliation engine that relate several calls or
    compare its two matching modes, and an independent statement of direct
    mode as a chain of checks. */
module ReconciliationProperties {
  import opened Wrappers
  import opened Text
  import opened PaymentIntentRepo
  import opened PaymentService
  import opened Sets

  // ---------------------------------------------------------------------------
  // Direct mode as a first-failure chain
  // ---------------------------------------------------------------------------

  /** One guard of a decision chain and the reason reported when it fails. */
  datatype Check = Check(passes: bool, reason: Reason)

  /** The index of the first failing check, or `|checks|` when all pass. */
  function FirstFailing(checks: seq<Check>): (i: nat)
    ensures i <= |checks|
    ensures i < |checks| ==> !checks[i].passes
    ensures forall j :: 0 <= j < i ==> checks[j].passes
  {
    if checks == [] then 0
    else if !checks[0].passes then 0
    else 1 + FirstFailing(checks[1..])
  }

  /** A chain succeeds when every check passes, and otherwise reports the reason
      of its first failure. */
  function ChainOutcome(checks: seq<Check>): Outcome {
    var i := FirstFailing(checks);
    if i == |checks| then Updated else Rejected(checks[i].reason)
  }

  /** The checks direct mode applies to a found intent, in their order. */
  function DirectChecks(pi: Intent, e: Event, now: int): seq<Check> {
    [ Check(pi.status != Paid, AlreadyPaid),
      Check(now <= pi.expiresAt, ExpiredIntent),
      Check(EqualsIgnoreCase(pi.merchantAddress, e.to), AddressMismatch),
      Check(e.amount >= pi.amount, AmountTooSmall) ]
  }

  /** Direct mode reports `not_found` for a missing intent and otherwise behaves
      exactly as the ordered chain already_paid, expired, address_mismatch,
      amount_too_small. */
  lemma DirectFollowsCheckChain(store: Store, id: Id, e: Event, now: int)
    ensures ReconcileDirect(store, id, e, now).outcome ==
              if id !in store then Rejected(NotFound) else ChainOutcome(DirectChecks(store[id], e, now))
  {
    if id in store {
      var checks := DirectChecks(store[id], e, now);
      var i := FirstFailing(checks);
      if !checks[0].passes {
        assert i == 0;
      } else if !checks[1].passes {
        assert i == 1;
      } else if !checks[2].passes {
        assert i == 2;
      } else if !checks[3].passes {
        assert i == 3;
      } else {
        assert i == 4;
      }
    }
  }

  // ---------------------------------------------------------------------------
  // Replays
  // ---------------------------------------------------------------------------

  /** Replaying a direct-mode event that succeeded, at any later or earlier
      instant, is refused as `already_paid` and changes nothing. */
  lemma ReplayDirectIsAlreadyPaid(store: Store, e: Event, now: int, replayAt: int)
    requires IsDirect(e)
    ensures var first := HandleBlockchainWebhook(store, e, now);
            first.outcome.Updated? ==>
              HandleBlockchainWebhook(first.store, e, replayAt) == Reply(Rejected(AlreadyPaid), first.store)
  {
    var first := HandleBlockchainWebhook(store, e, now);
    if first.outcome.Updated? {
      assert PaidOnly(store, first.store, e.paymentIntentId.value, e.txHash);
    }
  }

  /** Replaying a discovery-mode event that succeeded, at the same instant or
      later, finds no candidate: the one it paid is no longer PENDING and no
      other record has become a candidate. */
  lemma ReplayDiscoveryFindsNoMatch(store: Store, e: Event, now: int, replayAt: int)
    requires !IsDirect(e)
    requires now <= replayAt
    ensures var first := HandleBlockchainWebhook(store, e, now);
            first.outcome.Updated? ==>
              HandleBlockchainWebhook(first.store, e, replayAt) == Reply(Rejected(NoMatch), first.store)
  {
    var first := HandleBlockchainWebhook(store, e, now);
    if first.outcome.Updated? {
      var c := Candidates(store, e, now);
      var k := TheElement(c);
      assert PaidOnly(store, first.store, k, e.txHash);
      forall j | j in first.store
        ensures !IsCandidate(first.store[j], e, replayAt)
      {
        if j != k {
          assert j !in c;
          assert !IsCandidate(store[j], e, now);
        }
      }
      assert Candidates(first.store, e, replayAt) == {};
    }
  }

  // ---------------------------------------------------------------------------
  // Discovery-mode ambiguity
  // ---------------------------------------------------------------------------

  /** Two distinct candidates for the same discovery-mode event make it refuse
      with `multiple_matches`, leaving both records as they were. The amount must
      fit the column, or the query fails before any candidate is counted. */
  lemma AmbiguousMatchChangesNothing(store: Store, e: Event, now: int, a: Id, b: Id)
    requires !IsDirect(e)
    requires FitsColumn(e.amount)
    requires a in store && b in store && a != b
    requires IsCandidate(store[a], e, now) && IsCandidate(store[b], e, now)
    ensures HandleBlockchainWebhook(store, e, now) == Reply(Rejected(MultipleMatches), store)
  {
    TwoMembersMeanAtLeastTwo(Candidates(store, e, now), a, b);
  }

  // ---------------------------------------------------------------------------
  // Where the two modes differ
  // ---------------------------------------------------------------------------

  /** At the instant `now == expiresAt` direct mode still accepts an exactly
      matching PENDING intent, while discovery mode no longer counts it as a
      candidate. */
  lemma ExpiryInstantSplitsModes(store: Store, id: Id, e: Event, now: int)
    requires id in store
    requires store[id].status == Pending
    requires store[id].merchantAddress == e.to && store[id].amount == e.amount
    requires now == store[id].expiresAt
    ensures ReconcileDirect(store, id, e, now).outcome == Updated
    ensures id !in Candidates(store, e, now)
  {
    EqualsIgnoreCaseIsEquivalence(e.to, e.to, e.to);
  }

  /** Direct mode compares addresses ignoring case; discovery mode compares
      them exactly, so an address that differs only in case is accepted by the
      first and is no candidate for the second. */
  lemma AddressCaseSplitsModes(store: Store, id: Id, e: Event, now: int)
    requires id in store
    requires store[id].status == Pending && now <= store[id].expiresAt && e.amount == store[id].amount
    requires EqualsIgnoreCase(store[id].merchantAddress, e.to) && store[id].merchantAddress != e.to
    ensures ReconcileDirect(store, id, e, now).outcome == Updated
    ensures id !in Candidates(store, e, now)
  {
  }

  /** The premise of `AddressCaseSplitsModes` is met by real hex addresses. */
  lemma MixedCaseAddressesExample()
    ensures EqualsIgnoreCase("0xABC", "0xabc") && "0xABC" != "0xabc"
  {
    EqualsIgnoreCasePointwise("0xABC", "0xabc");
    assert "0xABC"[2] != "0xabc"[2];
  }

  /** Direct mode refuses only PAID intents: an EXPIRED record that is still
      before its expiry instant is paid like a PENDING one. */
  lemma DirectPaysExpiredStatus(store: Store, id: Id, e: Event, now: int)
    requires id in store && store[id].status == Expired
    requires now <= store[id].expiresAt
    requires EqualsIgnoreCase(store[id].merchantAddress, e.to) && e.amount >= store[id].amount
    ensures var r := ReconcileDirect(store, id, e, now);
            r.outcome == Updated && r.store[id].status == Paid
  {
  }

  /** Overpayment is accepted and underpayment refused, in direct mode. */
  lemma DirectAmountRule(store: Store, id: Id, e: Event, now: int)
    requires id in store && store[id].status == Pending && now <= store[id].expiresAt
    requires EqualsIgnoreCase(store[id].merchantAddress, e.to)
    ensures e.amount >= store[id].amount ==> ReconcileDirect(store, id, e, now).outcome == Updated
    ensures e.amount < store[id].amount ==>
              ReconcileDirect(store, id, e, now) == Reply(Rejected(AmountTooSmall), store)
  {
  }

  // ---------------------------------------------------------------------------
  // Store failures
  // ---------------------------------------------------------------------------

  /** A discovery-mode event whose amount the 64-bit column cannot hold makes
      the store's query fail: the failure is passed on and nothing changes. */
  lemma DiscoveryOutOfRangeFails(store: Store, e: Event, now: int)
    requires !IsDirect(e)
    requires !FitsColumn(e.amount)
    ensures HandleBlockchainWebhook(store, e, now) == Reply(Failed(AmountOutOfRange(e.amount)), store)
  {
  }

  /** A time-to-live of 10^13 seconds puts the expiry past the range of a
      JavaScript `Date`, so creation fails with an Invalid Date and writes
      nothing. */
  lemma HugeTtlIsInvalidDate()
    ensures var merchants := map["m1" := Merchant("Shop A", "0xabc", None)];
            CreateIntent(merchants, map[], "m1", 1000, None, Some(10_000_000_000_000), None, 0, "u-1", "pi-1")
              == Failure(StoreFailure(InvalidDate(10_000_000_000_000_000)))
  {
  }

  // ---------------------------------------------------------------------------
  // End-to-end scenario
  // ---------------------------------------------------------------------------

  /** Create an intent for 1000 to `0xabc`, pay it by a direct-mode event, and
      deliver the same event again: the first delivery updates, the record reads
      PAID, and the second is refused as `already_paid`. */
  lemma PayThenReplayScenario()
    ensures var merchants := map["m1" := Merchant("Shop A", "0xabc", None)];
            var created := CreateIntent(merchants, map[], "m1", 1000, Some("order"), Some(300), None, 0, "u-1", "pi-1");
            var e := Event("0x1", "0xfrom", "0xabc", 1000, Some("pi-1"));
            && created.Success?
            && created.value.intent.status == Pending
            && created.value.intent.expiresAt == 300000
            && var first := HandleBlockchainWebhook(created.value.store, e, 1000);
               && first.outcome == Updated
               && GetPaymentIntentById(first.store, "pi-1") == Some(created.value.intent.(status := Paid, blockchainTxHash := Some("0x1")))
               && HandleBlockchainWebhook(first.store, e, 2000) == Reply(Rejected(AlreadyPaid), first.store)
               && HandleBlockchainWebhook(first.store, e, 2000).outcome.reason.Code() == "already_paid"
  {
    var merchants := map["m1" := Merchant("Shop A", "0xabc", None)];
    var created := CreateIntent(merchants, map[], "m1", 1000, Some("order"), Some(300), None, 0, "u-1", "pi-1");
    var e := Event("0x1", "0xfrom", "0xabc", 1000, Some("pi-1"));
    assert IsDirect(e);
    EqualsIgnoreCaseIsEquivalence("0xabc", "0xabc", "0xabc");
    var first := HandleBlockchainWebhook(created.value.store, e, 1000);
    assert first.store.Keys == {"pi-1"};
  }
}

=== FILE: serialize.dfy ===
/** `serializeForJson`: the recursive conversion that replaces every bigint in a
    JSON-like JavaScript value by its decimal string before the value is sent
    as JSON. */
module Serialize {
  import opened Wrappers
  import opened Text

  /** A JavaScript value as the serialiser sees it. An object is the list of its
      own enumerable keys, in `Object.keys` order, with their values. A `Date`
      has no own keys, so it is `Obj([])`. */
  datatype Value =
    | Null
    | Undef
    | Big(n: int)
    | Str(s: string)
    | Num(x: real)
    | Bool(b: bool)
    | Arr(items: seq<Value>)
    | Obj(fields: seq<(string, Value)>)

  /** No bigint occurs anywhere in `v`. */
  predicate NoBigint(v: Value)
    decreases v
  {
    match v
    case Big(_) => false
    case Arr(items) => forall i :: 0 <= i < |items| ==> NoBigint(items[i])
    case Obj(fields) => forall i :: 0 <= i < |fields| ==> NoBigint(fields[i].1)
    case _ => true
  }

  /** The key sequence of an object. */
  function Keys(fields: seq<(string, Value)>): seq<string> {
    seq(|fields|, i requires 0 <= i < |fields| => fields[i].0)
  }

  /** The one key that `out[k] = x` on a fresh `{}` does not create: it runs the
      inherited `__proto__` setter, which at most replaces the prototype. */
  const ProtoKey: string := "__proto__"

  /** No property of the object is named `__proto__`. */
  predicate HasNoProto(fields: seq<(string, Value)>) {
    forall i :: 0 <= i < |fields| ==> fields[i].0 != ProtoKey
  }

  /** No object anywhere in `v` has an own `__proto__` property. */
  predicate NoProtoKey(v: Value)
    decreases v
  {
    match v
    case Arr(items) => forall i :: 0 <= i < |items| ==> NoProtoKey(items[i])
    case Obj(fields) => HasNoProto(fields) && forall i :: 0 <= i < |fields| ==> NoProtoKey(fields[i].1)
    case _ => true
  }

  /** The properties that copying by assignment into a fresh `{}` creates: all
      of them, in order, except those named `__proto__`. */
  function WithoutProto(fields: seq<(string, Value)>): (r: seq<(string, Value)>)
    ensures HasNoProto(r)
    ensures |r| <= |fields|
    ensures forall p :: p in r ==> p in fields
    ensures |r| == |fields| <==> HasNoProto(fields)
    ensures HasNoProto(fields) ==> r == fields
  {
    if fields == [] then []
    else if fields[0].0 == ProtoKey then
      var rest := WithoutProto(fields[1..]);
      assert fields == [fields[0]] + fields[1..];
      rest
    else
      var rest := WithoutProto(fields[1..]);
      assert fields == [fields[0]] + fields[1..];
      assert HasNoProto(fields) ==> HasNoProto(fields[1..]);
      [fields[0]] + rest
  }

  /** Only `__proto__` properties are dropped: every other property survives. */
  lemma {:induction false} WithoutProtoKeepsOthers(fields: seq<(string, Value)>)
    ensures forall p :: p in fields && p.0 != ProtoKey ==> p in WithoutProto(fields)
  {
    if fields != [] {
      WithoutProtoKeepsOthers(fields[1..]);
      assert forall p :: p in fields ==> p == fields[0] || p in fields[1..];
    }
  }

  /** A bigint becomes its decimal string; arrays are rebuilt with every element
      converted; objects are rebuilt with every property value converted, minus
      any `__proto__` property; everything else is returned as it is. */
  function SerializeForJson(v: Value): (r: Value)
    ensures NoBigint(r) && NoProtoKey(r)
    ensures v.Big? ==> r == Str(Decimal(v.n)) && ParseDecimal(r.s) == Some(v.n)
    ensures v.Null? || v.Undef? || v.Str? || v.Num? || v.Bool? ==> r == v
    ensures v.Arr? ==> r.Arr? && |r.items| == |v.items|
    ensures v.Obj? ==> r.Obj? && Keys(r.fields) == Keys(WithoutProto(v.fields))
    ensures v.Obj? && HasNoProto(v.fields) ==> Keys(r.fields) == Keys(v.fields)
    decreases v
  {
    match v
    case Big(n) =>
      DecimalRoundTrip(n);
      Str(Decimal(n))
    case Arr(items) =>
      Arr(seq(|items|, i requires 0 <= i < |items| => SerializeForJson(items[i])))
    case Obj(fields) =>
      var own := WithoutProto(fields);
      assert forall i :: 0 <= i < |own| ==> own[i] in fields;
      var r := Obj(seq(|own|, i requires 0 <= i < |own| => (own[i].0, SerializeForJson(own[i].1))));
      assert HasNoProto(r.fields);
      r
    case _ => v
  }

  /** Arrays are converted element by element in place. Each property of an
      object other than `__proto__` keeps its key and its position among those
      properties, with its value converted. */
  lemma SerializeMapsChildren(v: Value)
    ensures v.Arr? ==>
              forall i :: 0 <= i < |v.items| ==> SerializeForJson(v).items[i] == SerializeForJson(v.items[i])
    ensures v.Obj? ==>
              var own := WithoutProto(v.fields);
              && |SerializeForJson(v).fields| == |own|
              && forall i :: 0 <= i < |own| ==> SerializeForJson(v).fields[i] == (own[i].0, SerializeForJson(own[i].1))
    ensures v.Obj? && HasNoProto(v.fields) ==>
              forall i :: 0 <= i < |v.fields| ==>
                SerializeForJson(v).fields[i] == (v.fields[i].0, SerializeForJson(v.fields[i].1))
  {
  }

  /** An own `__proto__` property does not survive: `{"__proto__": "x"}`
      becomes `{}`. */
  lemma ProtoKeyIsDropped()
    ensures SerializeForJson(Obj([(ProtoKey, Str("x"))])) == Obj([])
  {
    assert WithoutProto([(ProtoKey, Str("x"))]) == [];
  }

  /** The values the serialiser leaves unchanged are exactly those without a
      bigint, and without an own `__proto__` property, anywhere inside. */
  lemma {:induction false} FixedPointsAreBigintFree(v: Value)
    ensures SerializeForJson(v) == v <==> NoBigint(v) && NoProtoKey(v)
    decreases v
  {
    match v
    case Arr(items) =>
      if NoBigint(v) && NoProtoKey(v) {
        forall i | 0 <= i < |items|
          ensures SerializeForJson(items[i]) == items[i]
        {
          FixedPointsAreBigintFree(items[i]);
        }
        assert SerializeForJson(v).items == items;
      }
    case Obj(fields) =>
      if NoBigint(v) && NoProtoKey(v) {
        forall i | 0 <= i < |fields|
          ensures SerializeForJson(fields[i].1) == fields[i].1
        {
          FixedPointsAreBigintFree(fields[i].1);
        }
        assert SerializeForJson(v).fields == fields;
      }
    case _ =>
  }

  /** Serialising twice is the same as serialising once. */
  lemma SerializeIdempotent(v: Value)
    ensures SerializeForJson(SerializeForJson(v)) == SerializeForJson(v)
  {
    FixedPointsAreBigintFree(SerializeForJson(v));
  }

  /** The bigint 1000 is sent as the string "1000". */
  lemma BigintThousandExample()
    ensures SerializeForJson(Big(1000)) == Str("1000")
  {
    assert NatDigits(1) == "1";
    assert NatDigits(10) == "10";
    assert NatDigits(100) == "100";
    assert NatDigits(1000) == "1000";
  }
}

=== FILE: sets.dfy ===
/** Cardinality facts about finite sets that the discovery-mode reasoning uses. */
module Sets {

  /** A one-element set has no two distinct members. */
  lemma SingletonHasOneElement<T>(s: set<T>)
    requires |s| == 1
    ensures forall a, b :: a in s && b in s ==> a == b
  {
    forall a, b | a in s && b in s
      ensures a == b
    {
      var rest := s - {a};
      assert |rest| == 0;
      assert b !in rest;
    }
  }

  /** The only member of a one-element set. */
  function TheElement<T>(s: set<T>): (x: T)
    requires |s| == 1
    ensures s == {x}
  {
    SingletonHasOneElement(s);
    var x :| x in s;
    x
  }

  /** A set with two distinct members has at least two elements. */
  lemma TwoMembersMeanAtLeastTwo<T>(s: set<T>, a: T, b: T)
    requires a in s && b in s && a != b
    ensures |s| >= 2
  {
    var rest := s - {a};
    assert b in rest;
    assert |rest| == |s| - 1;
  }
}

=== FILE: text.dfy ===
/** Character-level helpers used by the payment core: ASCII case folding for
    address comparison, and the decimal rendering of integers that
    `BigInt.prototype.toString()` produces, together with its inverse. */
module Text {
  import opened Wrappers

  // ---------------------------------------------------------------------------
  // Case folding
  // ---------------------------------------------------------------------------

  predicate IsUpper(c: char) {
    'A' <= c <= 'Z'
  }

  /** ASCII lower-casing of one character; every other character is kept. */
  function LowerChar(c: char): char {
    if IsUpper(c) then (c as int + 32) as char else c
  }

  /** `String.prototype.toLowerCase`, restricted to ASCII letters. */
  function ToLower(s: string): (r: string)
    ensures |r| == |s|
    ensures forall i :: 0 <= i < |s| ==> r[i] == LowerChar(s[i])
    ensures forall i :: 0 <= i < |r| ==> !IsUpper(r[i])
  {
    if s == [] then [] else [LowerChar(s[0])] + ToLower(s[1..])
  }

  /** `a.toLowerCase() === b.toLowerCase()`: identical strings are equal, and
      equal strings have the same length. */
  predicate EqualsIgnoreCase(a: string, b: string)
    ensures a == b ==> EqualsIgnoreCase(a, b)
    ensures EqualsIgnoreCase(a, b) ==> |a| == |b|
  {
    ToLower(a) == ToLower(b)
  }

  /** Two strings are equal ignoring case exactly when they have the same length
      and agree position by position after folding each character. */
  lemma EqualsIgnoreCasePointwise(a: string, b: string)
    ensures EqualsIgnoreCase(a, b) <==>
              |a| == |b| && forall i :: 0 <= i < |a| ==> LowerChar(a[i]) == LowerChar(b[i])
  {
    if |a| == |b| && forall i :: 0 <= i < |a| ==> LowerChar(a[i]) == LowerChar(b[i]) {
      assert forall i :: 0 <= i < |a| ==> ToLower(a)[i] == ToLower(b)[i];
    }
  }

  /** Folding is idempotent: a folded string folds to itself. */
  lemma ToLowerIdempotent(s: string)
    ensures ToLower(ToLower(s)) == ToLower(s)
  {
    var t := ToLower(s);
    assert forall i :: 0 <= i < |t| ==> ToLower(t)[i] == t[i];
  }

  /** Equality ignoring case is an equivalence relation. */
  lemma EqualsIgnoreCaseIsEquivalence(a: string, b: string, c: string)
    ensures EqualsIgnoreCase(a, a)
    ensures EqualsIgnoreCase(a, b) ==> EqualsIgnoreCase(b, a)
    ensures EqualsIgnoreCase(a, b) && EqualsIgnoreCase(b, c) ==> EqualsIgnoreCase(a, c)
  {
  }

  // ---------------------------------------------------------------------------
  // Decimal rendering
  // ---------------------------------------------------------------------------

  predicate IsDigit(c: char) {
    '0' <= c <= '9'
  }

  predicate AllDigits(s: string) {
    forall i :: 0 <= i < |s| ==> IsDigit(s[i])
  }

  function DigitChar(d: nat): char
    requires d < 10
  {
    ('0' as int + d) as char
  }

  function DigitValue(c: char): nat
    requires IsDigit(c)
  {
    c as int - '0' as int
  }

  /** The canonical digits of a natural number: at least one digit, and no
      leading zero unless the number is zero itself. */
  function NatDigits(n: nat): (s: string)
    ensures |s| >= 1
    ensures AllDigits(s)
    ensures s[0] == '0' ==> n == 0 && s == "0"
    decreases n
  {
    if n < 10 then [DigitChar(n)] else NatDigits(n / 10) + [DigitChar(n % 10)]
  }

  /** The number a string of digits denotes, read most significant digit first. */
  function DigitsValue(s: string): nat
    requires AllDigits(s)
  {
    if |s| == 0 then 0 else 10 * DigitsValue(s[..|s| - 1]) + DigitValue(s[|s| - 1])
  }

  /** `BigInt.prototype.toString()`: an optional minus sign, then the digits of
      the magnitude, in canonical form (no leading zero, no "-0"). */
  function Decimal(n: int): (s: string)
    ensures |s| >= 1
    ensures s[0] == '-' <==> n < 0
    ensures n >= 0 ==> AllDigits(s)
    ensures n < 0 ==> |s| >= 2 && AllDigits(s[1..]) && s[1] != '0'
    ensures s[0] == '0' ==> s == "0"
  {
    if n < 0 then "-" + NatDigits(-n) else NatDigits(n)
  }

  /** Reads back an optional minus sign followed by one or more decimal digits;
      anything else is rejected. */
  function ParseDecimal(s: string): Option<int> {
    if |s| >= 2 && s[0] == '-' && AllDigits(s[1..]) then Some(-(DigitsValue(s[1..]) as int))
    else if |s| >= 1 && AllDigits(s) then Some(DigitsValue(s))
    else None
  }

  lemma {:induction false} NatDigitsRoundTrip(n: nat)
    ensures DigitsValue(NatDigits(n)) == n
    decreases n
  {
    if n >= 10 {
      var s := NatDigits(n);
      assert s[..|s| - 1] == NatDigits(n / 10);
      NatDigitsRoundTrip(n / 10);
    }
  }

  /** Parsing the rendering of any integer gives the integer back. */
  lemma DecimalRoundTrip(n: int)
    ensures ParseDecimal(Decimal(n)) == Some(n)
  {
    if n < 0 {
      NatDigitsRoundTrip(-n);
      assert Decimal(n)[1..] == NatDigits(-n);
    } else {
      NatDigitsRoundTrip(n);
    }
  }

  /** Distinct integers render to distinct strings. */
  lemma DecimalInjective(m: int, n: int)
    ensures Decimal(m) == Decimal(n) ==> m == n
  {
    DecimalRoundTrip(m);
    DecimalRoundTrip(n);
  }

  /** A rendered integer never contains a character other than `-` and digits,
      so in particular no field separator `|`. */
  lemma DecimalHasNoSeparator(n: int, sep: char)
    requires sep != '-' && !IsDigit(sep)
    ensures sep !in Decimal(n)
  {
    var s := Decimal(n);
    if n < 0 {
      assert forall i :: 1 <= i < |s| ==> s[i] == s[1..][i - 1];
    }
  }
}

=== FILE: webhook_runs.dfy ===
/** Sequences of webhook deliveries handled one after another. The handler is
    sequential here: these results say nothing about deliveries that race. */
module WebhookRuns {
  import opened Wrappers
  import opened PaymentIntentRepo
  import opened PaymentService

  /** One delivery: the event and the clock reading when it is handled. */
  datatype Delivery = Delivery(event: Event, at: int)

  function CountUpdated(outcomes: seq<Outcome>): nat {
    if outcomes == [] then 0
    else (if outcomes[0].Updated? then 1 else 0) + CountUpdated(outcomes[1..])
  }

  /** The ids of the records that are not PAID. */
  function Unpaid(store: Store): set<Id> {
    set k | k in store && store[k].status != Paid
  }

  /** One call of the handler moves at most one id out of the unpaid set, and
      moves one exactly when it reports an update. */
  lemma StepAccounting(store: Store, d: Delivery)
    ensures var r := HandleBlockchainWebhook(store, d.event, d.at);
            && Unpaid(r.store) <= Unpaid(store)
            && |Unpaid(r.store)| + (if r.outcome.Updated? then 1 else 0) == |Unpaid(store)|
  {
    var r := HandleBlockchainWebhook(store, d.event, d.at);
    if r.outcome.Updated? {
      var k :| PaidOnly(store, r.store, k, d.event.txHash) && d.at <= store[k].expiresAt;
      assert Unpaid(r.store) == Unpaid(store) - {k};
    }
  }

  /** Handles the deliveries in order, threading the store through. Every
      reported update pays a distinct record that was unpaid at the start, so
      the updates plus the records still unpaid at the end account for exactly
      the records unpaid at the start. */
  function Run(store: Store, deliveries: seq<Delivery>): (r: (seq<Outcome>, Store))
    ensures |r.0| == |deliveries|
    ensures r.1.Keys == store.Keys
    ensures WellFormed(store) ==> WellFormed(r.1)
    ensures forall k :: k in store && store[k].status == Paid ==> r.1[k] == store[k]
    ensures Unpaid(r.1) <= Unpaid(store)
    ensures CountUpdated(r.0) + |Unpaid(r.1)| == |Unpaid(store)|
    decreases |deliveries|
  {
    if deliveries == [] then ([], store)
    else
      var step := HandleBlockchainWebhook(store, deliveries[0].event, deliveries[0].at);
      StepAccounting(store, deliveries[0]);
      var rest := Run(step.store, deliveries[1..]);
      assert ([step.outcome] + rest.0)[1..] == rest.0;
      ([step.outcome] + rest.0, rest.1)
  }

  /** Every delivery names intent `id` in direct mode. */
  predicate AllDirectTo(deliveries: seq<Delivery>, id: Id) {
    && id != ""
    && forall i :: 0 <= i < |deliveries| ==> deliveries[i].event.paymentIntentId == Some(id)
  }

  /** However many direct-mode deliveries for one intent are handled in
      sequence, and whatever their hashes, amounts and instants, at most one of
      them reports an update, and none does once the intent is PAID. */
  lemma {:induction false} AtMostOneDirectWinner(store: Store, deliveries: seq<Delivery>, id: Id)
    requires AllDirectTo(deliveries, id)
    ensures CountUpdated(Run(store, deliveries).0) <= 1
    ensures id in store && store[id].status == Paid ==> CountUpdated(Run(store, deliveries).0) == 0
    decreases |deliveries|
  {
    if deliveries != [] {
      var d := deliveries[0];
      var step := HandleBlockchainWebhook(store, d.event, d.at);
      assert IsDirect(d.event);
      assert AllDirectTo(deliveries[1..], id);
      AtMostOneDirectWinner(step.store, deliveries[1..], id);
      var rest := Run(step.store, deliveries[1..]);
      assert Run(store, deliveries).0 == [step.outcome] + rest.0;
      assert ([step.outcome] + rest.0)[1..] == rest.0;
      if step.outcome.Updated? {
        assert PaidOnly(store, step.store, id, d.event.txHash);
      }
    }
  }
}

=== FILE: wrappers.dfy ===
/** Option and Result, the failure-carrying values the rest of the model returns
    instead of throwing. */
module Wrappers {

  datatype Option<+T> = None | Some(value: T) {

    /** The wrapped value, or `default` when there is none (JavaScript's `??`). */
    function GetOr(default: T): T {
      match this
      case Some(v) => v
      case None => default
    }
  }

  datatype Result<+R, +E> = Success(value: R) | Failure(error: E)
}
